=== FILE: README.md ===
# HTML frame renderer — Dafny model

This project models the pure logic of the still-frame node `HTMLFrameRenderer`
of ComfyUI-HTMLRenderer (`html_renderer.py`). The node fills an HTML template
with a title, a body text, an input image and extension parameters. It
screenshots the result in a headless browser on a surface 87 rows taller than
requested, because the browser clips the bottom of its screenshots. Then it
crops the bitmap back to the requested size.

The model covers five pieces of logic and the small state around them:

- placeholder substitution (`_replace_parameters`): a left fold of Python
  `str.replace` over an insertion-ordered dict (`Strings`, `Template`);
- context construction: the fixed `title` / `text` / `image` fields, the
  `file://` prefixing of the image, dict-`update` merging of the extension
  parameters, and the extension-JSON fallback with `width` / `height` forced
  from the output geometry (`Context`);
- height compensation: the capture surface `(width, height + 87)`, the
  create-once session slot `_ensure_hti`, and the crop back to the top-left
  `width x height` rectangle (`Capture`);
- input normalisation: the first batch element only, grey broadcast to three
  channels, alpha dropped (`Normalize`);
- `render_frame` end to end, including the degraded output of its exception
  handler (`Renderer`).

The modules are `Wrappers`, `Strings`, `Context`, `Template`, `Capture`,
`Normalize` and `Renderer`, one `.dfy` file each. Python dicts are lists of
`(key, value)` entries with unique keys. Strings are `seq<char>`. Bitmaps are
`seq<seq<P>>` over an abstract pixel type, and image tensors hold abstract
channel values. The browser is a function parameter `shoot` from the request
(surface size, markup) to the bitmap it leaves, or `None` when no file
appears. The JSON parser is a parameter `parsed`: its answer for the
extension text, or `None` for a decode error.

Behaviours of the code that the model keeps as they are:

- The substitution fold is sequential, so a later key rewrites `{{b}}` text
  that an earlier key inserted (`Template.ChainedSubstitution`), and the
  result depends on key order (`Template.OrderMatters`).
- `render_frame` rebinds `image = image[0]` before anything can fail, so every
  failure after that point returns only the first batch element, re-batched.
  Only an empty batch comes back as given (`Renderer.RenderFrame`).
- The 87-row offset is the class constant `CHROMIUM_HEIGHT_OFFSET`
  (`Capture.HeightOffset`).
- The template is written to a file and read back in text mode, so the
  generator sees it with `\r\n` and lone `\r` turned into `\n`
  (`Strings.UniversalNewlines`, `Capture.NewGenerator`).
- A JSON text that parses to something other than an object (`[1]`, `5`,
  `null`) is not treated as empty. The item assignment of `width` raises, and
  the top-level handler returns the degraded output (`Context.ExtParams`,
  `Renderer.Failure.ExtNotObject`).

## Model

| member | source | states |
|---|---|---|
| Strings.ReplaceAll | html_renderer.py:479 | `str.replace` returns the text unchanged when the pattern does not occur in it |
| Strings.ReplaceAllCharacterised | html_renderer.py:479 | `str.replace` equals an independent definition: cut the text at the leftmost non-overlapping occurrences of the pattern, then join the pieces with the replacement |
| Strings.SplitUnique | html_renderer.py:479 | the leftmost non-overlapping decomposition of a text at a pattern is unique |
| Strings.SplitIsLeftmost | html_renderer.py:479 | the left-to-right scan cuts at leftmost occurrences, and no piece contains the pattern |
| Strings.Split | html_renderer.py:479 | joining the pieces back with the pattern restores the text (split/join round trip) |
| Strings.ReplaceSingle | html_renderer.py:479 | a text holding the pattern once, with the pattern's first character nowhere else, has that one occurrence replaced and everything around it kept |
| Strings.ReplaceUnchangedIff | html_renderer.py:479 | replacing leaves the text unchanged if and only if the pattern is absent or is replaced by itself |
| Strings.Strip | html_renderer.py:402 | `str.strip()` is the slice of the text between its leading and trailing whitespace: what it drops on both sides is whitespace, and it neither starts nor ends with whitespace |
| Strings.BlankIffStripEmpty | html_renderer.py:402 | `ext_json.strip()` is empty, the test that selects the `{}` fallback, exactly when every character of the text is whitespace |
| Strings.NatToDecimal | html_renderer.py:479 | `str(n)` of a natural number gives canonical decimal digits that read back as `n` |
| Strings.IntToDecimal | html_renderer.py:479 | `str(n)` of an integer has a leading minus exactly when `n` is negative, followed by the canonical digits (no leading zeros, `0` for zero) of its magnitude |
| Strings.CanonicalDigitsUnique | html_renderer.py:479 | two canonical digit strings with the same value are the same string |
| Strings.DecimalUnique | html_renderer.py:479 | an integer has exactly one decimal text, so `str(n)` is determined by `n` |
| Strings.UniversalNewlines | html_renderer.py:397-398 | reading the written template back yields no `\r`, and a template without `\r` comes back unchanged |
| Strings.UniversalNewlinesByReplace | html_renderer.py:471-473 | the read-back text equals replacing `\r\n` by `\n`, then every remaining `\r` by `\n` |
| Template.Placeholder | html_renderer.py:478 | the placeholder of `key` is `{{`, then `key`, then `}}` |
| Template.PlaceholderInjective | html_renderer.py:478 | two keys have the same placeholder if and only if they are the same key |
| Template.Substitute | html_renderer.py:475-480 | a template with no `{{` (and so no placeholder) comes back unchanged, for every context, including the empty one |
| Template.SubstituteAppend | html_renderer.py:477-479 | the fold runs strictly left to right: substituting `c1 + c2` is substituting `c1`, then `c2` on the result |
| Template.SubstituteLast | html_renderer.py:477-479 | the last key is replaced last, in the text produced by all earlier keys |
| Template.SubstituteSkipsAbsentKey | html_renderer.py:477-479 | a key whose `{{key}}` is absent from the text when its turn comes can be dropped without changing the result |
| Template.SubstituteStepUnchangedIff | html_renderer.py:478-479 | one key leaves the text unchanged if and only if its placeholder is absent or its value's text equals the placeholder |
| Template.SubstituteNoPlaceholder | html_renderer.py:477-479 | a text containing no placeholder of any of the context's keys comes back unchanged; placeholders of other keys stay |
| Template.SubstituteIdempotent | html_renderer.py:475-480 | once the result holds no placeholder of any of the context's keys, substituting the same context again changes nothing |
| Template.ChainedSubstitution | html_renderer.py:477-479 | text inserted by an earlier key is rewritten by a later key: `{{a}}` with `a = "{{b}}"`, then `b = "X"`, gives `X` |
| Template.OrderMatters | html_renderer.py:477-479 | with the same two keys in the other order, `{{b}}` survives |
| Context.Show | html_renderer.py:479 | `str(value)` of a string is the string itself, and of an integer its decimal text |
| Context.Update | html_renderer.py:408-409 | after `d[k] = v`, `k` maps to `v`, and the dict grows by at most one entry |
| Context.UpdateOthers | html_renderer.py:408-409 | `d[k] = v` leaves the value of every other key unchanged |
| Context.UpdateKeys | html_renderer.py:408-409 | `d[k] = v` keeps an existing key's position and appends a new key last |
| Context.UpdateUnique | html_renderer.py:408-409 | `d[k] = v` keeps keys unique |
| Context.UpdateAll | html_renderer.py:512-513 | `context.update(ext)` grows the dict by at most `len(ext)` entries, and the last entry of `ext` wins for its key |
| Context.UpdateAllLookup | html_renderer.py:512-513 | after `context.update(ext)`, every key has the value from `ext` if `ext` has it, and otherwise the old value |
| Context.UpdateAllKeys | html_renderer.py:512-513 | after `context.update(ext)`, old keys keep their positions, and the keys new to the context follow in `ext`'s order |
| Context.UpdateAllUnique | html_renderer.py:512-513 | `context.update(ext)` keeps keys unique |
| Context.ImageRef | html_renderer.py:508 | the image reference is `"file://" + image` exactly when the image is non-empty and starts with none of `http://`, `https://`, `file://`; otherwise it is the image unchanged; the result is empty or carries a scheme |
| Context.ImageRefIdempotent | html_renderer.py:508 | a reference that already went through the prefixing is left unchanged by it |
| Context.BuildContext | html_renderer.py:505-513 | the context holds the three fixed fields plus at most one entry per extension entry |
| Context.BuildContextKeys | html_renderer.py:505-513 | the context lists `title`, `text`, `image` first, then the extension's other keys in their order; keys stay unique |
| Context.BaseKeys | html_renderer.py:505-509 | the fixed fields are the three distinct keys `title`, `text`, `image`, in that order |
| Context.BuildContextHead | html_renderer.py:505-513 | unless the extension sets `title`, the context's first entry is `title` with the node's title |
| Context.BuildContextLookup | html_renderer.py:505-513 | an extension key overrides a fixed field (in place), and keys missing from the extension keep the fixed field's value |
| Context.ExtParams | html_renderer.py:401-409 | `width` and `height` always equal the output geometry; blank or malformed JSON gives exactly `{width, height}`; only a non-object JSON document fails |
| Context.EmptyTextFallback | html_renderer.py:401-405 | blank text, or text the JSON parser rejects, gives the same parameters as the text `{}` |
| Context.ExtParamsKeepsOtherKeys | html_renderer.py:401-409 | every other key of a parsed JSON object keeps its value |
| Capture.CaptureSize | html_renderer.py:529-532 | the capture surface has the requested width and is taller than the requested height |
| Capture.Crop | html_renderer.py:550 | the crop has exactly `height` rows of `width` pixels; each pixel is the raw one where the bitmap has it, otherwise the PIL fill |
| Capture.CropInside | html_renderer.py:550 | on a bitmap at least `width x height`, crop row `r` is the first `width` pixels of raw row `r` |
| Capture.CropOfCapture | html_renderer.py:528-550 | on a bitmap of the compensated size, the crop is exactly its top `height` rows; the dropped rows are the last 87; the last row kept is raw row `height - 1` |
| Capture.CropIgnoresBelow | html_renderer.py:550 | rows below the crop never influence it |
| Capture.CropIdempotent | html_renderer.py:550 | cropping a crop to the same size changes nothing |
| Capture.EnsureSession | html_renderer.py:482-498 | a session of the asked size is created only when the slot is empty, and an existing session is kept |
| Capture.EnsureSessionOnce | html_renderer.py:482-498 | a second call leaves the slot as the first call left it, whatever size it asks for |
| Capture.GenerateFrame | html_renderer.py:500-563 | the browser receives the substituted template on the compensated surface; the session slot is filled and stays filled; there is a frame exactly when the screenshot exists, and then it is the `width x height` crop of that screenshot |
| Capture.NewGenerator | html_renderer.py:460-473 | a new generator has an empty session slot, the given geometry, and the template as read back from its file: free of `\r`, and the written text itself when that had no `\r` |
| Capture.GenerateFrameFromNew | html_renderer.py:460-469 | a fresh generator requests `(width, height + 87)`, and calling it again gives the same outcome |
| Normalize.SelectImage | html_renderer.py:377-378 | a batch yields its element 0 and nothing else; an empty batch fails |
| Normalize.SelectRebatched | html_renderer.py:377-378 | re-batching the selected element and selecting again gives the same element, and keeps a well-shaped picture well-shaped |
| Normalize.Broadcast | html_renderer.py:382-383 | `np.repeat(px, 3, axis=-1)`: three times as many values, value `i` of the result being value `i / 3` of the pixel; a one-value pixel becomes three copies of its value |
| Normalize.DropAlpha | html_renderer.py:384-385 | `px[..., :3]`: a pixel of at least three values keeps exactly its first three, the dropped rest being its tail; a shorter pixel is unchanged |
| Normalize.NormalizeChannels | html_renderer.py:381-385 | a 1-channel pixel becomes three copies of its value; a 4-channel pixel becomes its first three channels (plus its alpha, it is the original); other channel counts are unchanged; geometry is kept |
| Normalize.GrayRoundTrip | html_renderer.py:382-383 | broadcasting loses nothing: channel 0 of the broadcast picture is the grey input |
| Normalize.NormalizeIdempotent | html_renderer.py:380-385 | normalising any well-shaped picture twice equals normalising it once |
| Renderer.RenderFrame | html_renderer.py:369-458 | a successful render returns the crop of the browser's bitmap: exactly `height x width`, from a `(width, height + 87)` request carrying the context substituted into the template as read back from its file; on failure the handler returns a batch, either the original empty batch or element 0 re-batched; JSON that is not an object is the ext failure |
| Renderer.RenderIgnoresLaterItems | html_renderer.py:377-378 | batch elements after the first are never looked at: two batches with the same first picture render to the same result, success or failure |
| Renderer.RenderContextFields | html_renderer.py:401-409 | the substituted context's `width` and `height` are the output geometry, and its `image` is the `file://` reference of the saved input unless the JSON overrides it |
| Renderer.RenderSucceeds | html_renderer.py:369-458 | when the image is selected, the extension text is usable and the browser answers the render's own request, the render succeeds, and that request is a `(width, height + 87)` surface showing the substituted template |
| Renderer.RenderCaptureMissing | html_renderer.py:369-458 | under the same conditions, when the browser leaves no screenshot for that request, the render degrades to element 0 re-batched with the capture failure; with `RenderSucceeds`, the browser's answer alone decides between the two |
| Renderer.MalformedExtIsEmpty | html_renderer.py:401-405 | a blank or malformed extension text renders exactly like `{}` |
| Renderer.TitleScenario | html_renderer.py:500-551 | for any non-empty input image, `<h1>{{title}}</h1>` with title `Hi` at 200 x 100 asks the browser for a 200 x 187 surface showing `<h1>Hi</h1>` and returns 100 rows of 200 pixels |

## Left out

- Capture.CaptureSize: its contract states only that the surface keeps the width and is taller. The exact 87-row difference is stated by `Capture.CropOfCapture` and `Capture.GenerateFrameFromNew`.

- The browser screenshot (`Html2Image`, its command-line flags, the temporary PNG read from the working directory, lines 485-498 and 535-546): a foreign library plus file I/O. It is the `shoot` parameter.
- Temporary directories, writing the input PNG and the template file, saving the output PNG under a `uuid` name, `shutil.rmtree` and `os.remove` cleanup, and `print` logging (lines 388-398, 441-451, 519-526, 554-556): filesystem side effects. The path string `render_frame` returns, which is empty on failure, is therefore not modelled. The temporary input path is the `inputPath` parameter.
- Renderer.RenderFrame: the template file round trip (lines 397-398, 471-473) is modelled by `Strings.UniversalNewlines` for a POSIX system. On Windows the text-mode write would first turn each `\n` into `\r\n`, which the read turns back, so the result is the same except for a `\r` directly before a `\n` in the original; that platform difference is not modelled.
- The float/`uint8` pixel scaling and the numpy, torch and PIL conversions (lines 381, 392, 428-438): floating point and library wrappers. A successful render returns the cropped bitmap and the normalised picture written to the input file, not float tensors.
- Exceptions other than the three modelled causes. These include PIL refusing to encode an unusual channel count, file errors, and parser errors other than a decode error.
- `json.loads` itself: its answer is the `parsed` parameter. Duplicate keys inside one JSON object are assumed to be already merged by the parser (`Context.WellFormedDoc`).
- `str()` of JSON floats, booleans, `null`, lists and objects: such values carry their text (`Context.Value.Other`). Only strings and integers are rendered by the model.
- `str.replace` with an empty pattern: a placeholder `{{key}}` is never empty.
- The input bounds 100..4096 on the output geometry are enforced by the host (lines 350-359). The model accepts any natural numbers.
- The node metadata, the default template and the registrations (lines 35-366, 568-575, `__init__.py`): host glue and data.
- `__init__.py:5` also registers `HTMLVideoRecorderPlaywright`, which `html_renderer.py` does not define (its only class is `HTMLFrameRenderer`, line 14); it is not modelled.

=== FILE: capture.dfy ===
/** The still-frame capture engine (`FixedHTMLFrameGenerator`): the
    height-compensation geometry, the create-once browser session slot, the
    crop back to the requested size, the template read back from its file,
    and `generate_frame` tying them to the substituted markup. The browser
    screenshot itself is a parameter. */
module Capture {
  import opened Wrappers
  import opened Strings
  import opened Context
  import opened Template

  /** Extra rows requested from the browser to make up for the rows its
      screenshot path clips at the bottom (`CHROMIUM_HEIGHT_OFFSET`). */
  const HeightOffset: nat := 87

  datatype Size = Size(width: nat, height: nat)

  /** The surface the browser renders on for an output of `width` x
      `height`: same width, `HeightOffset` more rows. */
  function CaptureSize(width: nat, height: nat): (s: Size)
    ensures s.width == width && s.height > height
  {
    Size(width, height + HeightOffset)
  }

  /** A bitmap as rows of pixels, top row first. */
  type Grid<P> = seq<seq<P>>

  /** `g` has exactly `height` rows of `width` pixels. */
  ghost predicate IsGrid<P>(g: Grid<P>, width: nat, height: nat)
  {
    |g| == height && forall r :: 0 <= r < |g| ==> |g[r]| == width
  }

  /** The pixel PIL reads at row `r`, column `c`: outside the bitmap it
      fills with `blank` (zeros). */
  function PixelAt<P>(raw: Grid<P>, r: nat, c: nat, blank: P): P
  {
    if r < |raw| && c < |raw[r]| then raw[r][c] else blank
  }

  /** `img.crop((0, 0, width, height))`: the top-left `width` x `height`
      rectangle, always of exactly that size. */
  function Crop<P>(raw: Grid<P>, width: nat, height: nat, blank: P): (out: Grid<P>)
    ensures IsGrid(out, width, height)
    ensures forall r, c :: 0 <= r < height && 0 <= c < width ==>
              out[r][c] == (if r < |raw| && c < |raw[r]| then raw[r][c] else blank)
  {
    seq(height, r requires 0 <= r < height =>
      seq(width, c requires 0 <= c < width => PixelAt(raw, r, c, blank)))
  }

  /** Cropping a bitmap at least as large as the crop keeps the first
      `width` pixels of each of its first `height` rows, and nothing else. */
  lemma CropInside<P>(raw: Grid<P>, rawWidth: nat, rawHeight: nat, width: nat, height: nat, blank: P)
    requires IsGrid(raw, rawWidth, rawHeight)
    requires width <= rawWidth && height <= rawHeight
    ensures forall r :: 0 <= r < height ==> Crop(raw, width, height, blank)[r] == raw[r][..width]
  {
    var out := Crop(raw, width, height, blank);
    forall r | 0 <= r < height
      ensures out[r] == raw[r][..width]
    {
      assert forall c :: 0 <= c < width ==> out[r][c] == raw[r][c];
    }
  }

  /** On a bitmap of the capture size, the crop is exactly its top `height`
      rows: the bottom `HeightOffset` rows are the ones dropped, and the
      last row kept is row `height - 1`. */
  lemma CropOfCapture<P>(raw: Grid<P>, width: nat, height: nat, blank: P)
    requires IsGrid(raw, width, height + HeightOffset)
    ensures Crop(raw, width, height, blank) == raw[..height]
    ensures Crop(raw, width, height, blank) + raw[height..] == raw
    ensures |raw[height..]| == HeightOffset
    ensures height > 0 ==> Crop(raw, width, height, blank)[height - 1] == raw[height - 1]
  {
    var out := Crop(raw, width, height, blank);
    CropInside(raw, width, height + HeightOffset, width, height, blank);
    forall r | 0 <= r < height
      ensures out[r] == raw[r]
    {
      assert raw[r][..width] == raw[r];
    }
  }

  /** Rows below the crop never influence it. */
  lemma CropIgnoresBelow<P>(raw: Grid<P>, width: nat, height: nat, blank: P)
    requires height <= |raw|
    ensures Crop(raw, width, height, blank) == Crop(raw[..height], width, height, blank)
  {
    var a := Crop(raw, width, height, blank);
    var b := Crop(raw[..height], width, height, blank);
    forall r | 0 <= r < height
      ensures a[r] == b[r]
    {
      assert forall c :: 0 <= c < width ==> a[r][c] == b[r][c];
    }
  }

  /** Cropping an already cropped bitmap to the same size changes nothing. */
  lemma CropIdempotent<P>(raw: Grid<P>, width: nat, height: nat, blank: P)
    ensures Crop(Crop(raw, width, height, blank), width, height, blank) == Crop(raw, width, height, blank)
  {
    var once := Crop(raw, width, height, blank);
    var twice := Crop(once, width, height, blank);
    forall r | 0 <= r < height
      ensures twice[r] == once[r]
    {
      assert forall c :: 0 <= c < width ==> twice[r][c] == once[r][c];
    }
  }

  /** A browser screenshot session, fixed to the size it was opened with. */
  datatype Session = Session(size: Size)

  /** `_ensure_hti`: open a session of the given size when the slot is
      empty; an existing session is kept, whatever size is asked for. */
  function EnsureSession(slot: Option<Session>, size: Size): (r: Option<Session>)
    ensures r.Some?
    ensures slot.Some? ==> r == slot
    ensures slot.None? ==> r.value.size == size
  {
    if slot.None? then Some(Session(size)) else slot
  }

  /** A second `_ensure_hti` leaves the slot exactly as the first left it. */
  lemma EnsureSessionOnce(slot: Option<Session>, first: Size, second: Size)
    ensures EnsureSession(EnsureSession(slot, first), second) == EnsureSession(slot, first)
  {
  }

  /** A frame generator: the template text, the output geometry and the
      lazily filled session slot. */
  datatype Generator = Generator(template: string, width: nat, height: nat, session: Option<Session>)

  /** The generator `_create_html_frame_generator` returns for the template
      file written from `written`: its template is the text the file reads
      back as, and no session exists yet. */
  function NewGenerator(written: string, width: nat, height: nat): (g: Generator)
    ensures g.session.None? && SessionFits(g)
    ensures g.width == width && g.height == height
    ensures '\r' !in g.template
    ensures '\r' !in written ==> g.template == written
  {
    Generator(UniversalNewlines(written), width, height, None)
  }

  /** The generator's session, if it has one, is sized for the
      compensated capture of its own geometry. */
  predicate SessionFits(g: Generator)
  {
    g.session.None? || g.session.value.size == CaptureSize(g.width, g.height)
  }

  /** What the browser is asked to render: on which surface, what markup. */
  datatype Request = Request(size: Size, markup: string)

  /** The result of `generate_frame`: the generator afterwards, the request
      handed to the browser, and the cropped frame (`None` when the
      screenshot file did not appear, which raises in the source). */
  datatype FrameOutcome<P> = FrameOutcome(generator: Generator, request: Request, frame: Option<Grid<P>>)

  /** `generate_frame`: build the context, substitute, make sure a session
      of the compensated size exists, screenshot, crop to the requested
      size. `shoot` is the browser: the bitmap it leaves for a request, if
      any. */
  function GenerateFrame<P>(g: Generator, title: string, text: string, image: string, ext: Option<Dict>,
                            shoot: Request -> Option<Grid<P>>, blank: P): (out: FrameOutcome<P>)
    requires ext.Some? ==> UniqueKeys(ext.value)
    ensures out.generator.session.Some?
    ensures out.generator == g.(session := out.generator.session)
    ensures g.session.Some? ==> out.generator == g
    ensures SessionFits(g) ==> SessionFits(out.generator) && out.request.size == CaptureSize(g.width, g.height)
    ensures out.request.markup == Substitute(g.template, BuildContext(title, text, image, ext))
    ensures out.frame.Some? <==> shoot(out.request).Some?
    ensures out.frame.Some? ==> IsGrid(out.frame.value, g.width, g.height)
    ensures out.frame.Some? ==> out.frame.value == Crop(shoot(out.request).value, g.width, g.height, blank)
  {
    var markup := Substitute(g.template, BuildContext(title, text, image, ext));
    var session := EnsureSession(g.session, CaptureSize(g.width, g.height));
    var request := Request(session.value.size, markup);
    var frame := match shoot(request)
      case None => None
      case Some(raw) => Some(Crop(raw, g.width, g.height, blank));
    FrameOutcome(g.(session := session), request, frame)
  }

  /** A fresh generator asks for the compensated surface on every call,
      and its frames are the top-left crop of what the browser returned. */
  lemma GenerateFrameFromNew<P>(template: string, width: nat, height: nat, title: string, text: string,
                                image: string, ext: Option<Dict>, shoot: Request -> Option<Grid<P>>, blank: P)
    requires ext.Some? ==> UniqueKeys(ext.value)
    ensures var out := GenerateFrame(NewGenerator(template, width, height), title, text, image, ext, shoot, blank);
            && out.request.size == Size(width, height + HeightOffset)
            && (out.frame.Some? ==> out.frame.value == Crop(shoot(out.request).value, width, height, blank))
            && GenerateFrame(out.generator, title, text, image, ext, shoot, blank) == out
  {
  }
}

=== FILE: context.dfy ===
/** The substitution context of the still-frame renderer: an insertion-
    ordered Python dict from placeholder names to values, the fixed fields
    `title`, `text` and `image`, dict-`update` merging of the extension
    parameters, and the extension-JSON fallback of `render_frame`. */
module Context {
  import opened Wrappers
  import opened Strings

  /** A context value. Strings come from the node's inputs and from JSON
      strings, integers from the output geometry and JSON integers; every
      other JSON value (float, bool, null, list, object) is carried with the
      text Python's `str()` gives it. */
  datatype Value = Text(s: string) | Int(n: int) | Other(shown: string)

  /** Python's `str(value)`. */
  function Show(v: Value): (r: string)
    ensures v.Text? ==> r == v.s
    ensures v.Int? ==> IsDecimalOf(r, v.n)
  {
    match v
    case Text(s) => s
    case Int(n) => IntToDecimal(n)
    case Other(shown) => shown
  }

  /** An insertion-ordered dict as its list of entries. */
  type Dict = seq<(string, Value)>

  /** The keys in insertion order. */
  function KeysOf(d: Dict): (ks: seq<string>)
    ensures |ks| == |d|
    ensures forall i :: 0 <= i < |d| ==> ks[i] == d[i].0
  {
    if |d| == 0 then [] else [d[0].0] + KeysOf(d[1..])
  }

  /** No key is listed twice, as in every Python dict. */
  predicate UniqueKeys(d: Dict)
  {
    forall i, j :: 0 <= i < j < |d| ==> d[i].0 != d[j].0
  }

  /** Python's `d.get(k)`: the value stored under `k`, if any. */
  function Lookup(d: Dict, k: string): (r: Option<Value>)
    ensures r.Some? <==> k in KeysOf(d)
  {
    if |d| == 0 then None
    else
      assert KeysOf(d) == [d[0].0] + KeysOf(d[1..]);
      if d[0].0 == k then Some(d[0].1) else Lookup(d[1..], k)
  }

  /** In a dict, the value found for a key is the one stored beside it. */
  lemma {:induction false} LookupAt(d: Dict, i: int)
    requires UniqueKeys(d)
    requires 0 <= i < |d|
    ensures Lookup(d, d[i].0) == Some(d[i].1)
    decreases |d|
  {
    if i > 0 {
      LookupAt(d[1..], i - 1);
    }
  }

  /** Python's `d[k] = v`: an existing key is overwritten where it stands,
      a new key is appended at the end. */
  function Update(d: Dict, k: string, v: Value): (r: Dict)
    ensures Lookup(r, k) == Some(v)
    ensures |d| <= |r| <= |d| + 1
  {
    if |d| == 0 then [(k, v)]
    else if d[0].0 == k then [(k, v)] + d[1..]
    else
      var r := [d[0]] + Update(d[1..], k, v);
      assert r[1..] == Update(d[1..], k, v);
      r
  }

  /** Storing `k` leaves every other key's value alone. */
  lemma {:induction false} UpdateOthers(d: Dict, k: string, v: Value, k': string)
    requires k' != k
    ensures Lookup(Update(d, k, v), k') == Lookup(d, k')
    decreases |d|
  {
    if |d| > 0 && d[0].0 != k {
      UpdateOthers(d[1..], k, v, k');
      assert Update(d, k, v)[1..] == Update(d[1..], k, v);
    }
  }

  /** Storing `k` keeps the key order; a new key goes last. */
  lemma {:induction false} UpdateKeys(d: Dict, k: string, v: Value)
    ensures k in KeysOf(d) ==> KeysOf(Update(d, k, v)) == KeysOf(d)
    ensures k !in KeysOf(d) ==> KeysOf(Update(d, k, v)) == KeysOf(d) + [k]
    decreases |d|
  {
    if |d| > 0 {
      var r := Update(d, k, v);
      assert KeysOf(d) == [d[0].0] + KeysOf(d[1..]);
      if d[0].0 != k {
        UpdateKeys(d[1..], k, v);
        assert r[1..] == Update(d[1..], k, v);
        assert KeysOf(r) == [d[0].0] + KeysOf(r[1..]);
      } else {
        assert r[1..] == d[1..];
        assert KeysOf(r) == [k] + KeysOf(r[1..]);
      }
    }
  }

  /** Storing a key keeps a dict's keys unique. */
  lemma UpdateUnique(d: Dict, k: string, v: Value)
    requires UniqueKeys(d)
    ensures UniqueKeys(Update(d, k, v))
  {
    UpdateKeys(d, k, v);
    var r := Update(d, k, v);
    assert forall i :: 0 <= i < |r| ==> KeysOf(r)[i] == r[i].0;
    assert forall i :: 0 <= i < |d| ==> KeysOf(d)[i] == d[i].0;
  }

  /** The keys of `ks` that `known` does not hold, in `ks`'s order. */
  function Fresh(known: seq<string>, ks: seq<string>): seq<string>
  {
    if |ks| == 0 then []
    else (if ks[0] in known then [] else [ks[0]]) + Fresh(known, ks[1..])
  }

  /** `Fresh` only cares about membership in `known`. */
  lemma {:induction false} FreshIgnoresAbsent(known: seq<string>, x: string, ks: seq<string>)
    requires x !in ks
    ensures Fresh(known + [x], ks) == Fresh(known, ks)
    decreases |ks|
  {
    if |ks| > 0 {
      FreshIgnoresAbsent(known, x, ks[1..]);
    }
  }

  /** Python's `d.update(e)`: the entries of `e`, in order, each stored as
      by `d[k] = v`. */
  function UpdateAll(d: Dict, e: Dict): (r: Dict)
    ensures |d| <= |r| <= |d| + |e|
    ensures |e| > 0 ==> Lookup(r, e[|e| - 1].0) == Some(e[|e| - 1].1)
    decreases |e|
  {
    if |e| == 0 then d
    else
      var rest := e[1..];
      assert |rest| > 0 ==> rest[|rest| - 1] == e[|e| - 1];
      UpdateAll(Update(d, e[0].0, e[0].1), rest)
  }

  /** The first key of a dict appears nowhere in the rest, which is a
      dict too. */
  lemma UniqueHead(e: Dict)
    requires UniqueKeys(e)
    requires |e| > 0
    ensures KeysOf(e) == [e[0].0] + KeysOf(e[1..])
    ensures e[0].0 !in KeysOf(e[1..])
    ensures UniqueKeys(e[1..])
  {
    var rest := e[1..];
    assert forall j :: 0 <= j < |rest| ==> rest[j] == e[j + 1];
    assert KeysOf(e) == [e[0].0] + KeysOf(rest);
    forall j | 0 <= j < |rest|
      ensures KeysOf(rest)[j] != e[0].0
    {
      assert KeysOf(rest)[j] == e[j + 1].0;
    }
  }

  /** One step of `d.update(e)` on the key order alone: a key `d`
      already has adds nothing, a new one is appended. */
  lemma FreshStep(kd: seq<string>, k0: string, ks: seq<string>)
    requires k0 !in ks
    ensures k0 in kd ==> kd + Fresh(kd, ks) == kd + Fresh(kd, [k0] + ks)
    ensures k0 !in kd ==> kd + [k0] + Fresh(kd + [k0], ks) == kd + Fresh(kd, [k0] + ks)
  {
    var e := [k0] + ks;
    assert e[0] == k0 && e[1..] == ks;
    if k0 in kd {
      assert Fresh(kd, e) == Fresh(kd, ks);
    } else {
      assert Fresh(kd, e) == [k0] + Fresh(kd, ks);
      FreshIgnoresAbsent(kd, k0, ks);
      assert kd + [k0] + Fresh(kd, ks) == kd + ([k0] + Fresh(kd, ks));
    }
  }

  /** After `d.update(e)`, `e` wins on every key it has and `d` keeps the
      rest. */
  lemma {:induction false} UpdateAllLookup(d: Dict, e: Dict, k: string)
    requires UniqueKeys(e)
    ensures Lookup(UpdateAll(d, e), k) == (if k in KeysOf(e) then Lookup(e, k) else Lookup(d, k))
    decreases |e|
  {
    if |e| > 0 {
      var k0 := e[0].0;
      var d' := Update(d, k0, e[0].1);
      UniqueHead(e);
      UpdateAllLookup(d', e[1..], k);
      if k != k0 {
        UpdateOthers(d, k0, e[0].1, k);
      }
    }
  }

  /** After `d.update(e)`, the keys of `d` keep their positions and the
      keys new to `d` follow in `e`'s order. */
  lemma {:induction false} UpdateAllKeys(d: Dict, e: Dict)
    requires UniqueKeys(e)
    ensures KeysOf(UpdateAll(d, e)) == KeysOf(d) + Fresh(KeysOf(d), KeysOf(e))
    decreases |e|
  {
    if |e| > 0 {
      var k0 := e[0].0;
      var d' := Update(d, k0, e[0].1);
      UniqueHead(e);
      assert UpdateAll(d, e) == UpdateAll(d', e[1..]);
      UpdateAllKeys(d', e[1..]);
      UpdateKeys(d, k0, e[0].1);
      FreshStep(KeysOf(d), k0, KeysOf(e[1..]));
    }
  }

  /** `d.update(e)` keeps a dict's keys unique. */
  lemma {:induction false} UpdateAllUnique(d: Dict, e: Dict)
    requires UniqueKeys(d)
    ensures UniqueKeys(UpdateAll(d, e))
    decreases |e|
  {
    if |e| > 0 {
      UpdateUnique(d, e[0].0, e[0].1);
      UpdateAllUnique(Update(d, e[0].0, e[0].1), e[1..]);
    }
  }

  /** Python's `s.startswith(('http://', 'https://', 'file://'))`. */
  predicate HasUrlScheme(s: string)
  {
    StartsWith(s, "http://") || StartsWith(s, "https://") || StartsWith(s, "file://")
  }

  /** The `image` field of the context: a non-empty local path gets a
      `file://` prefix, a URL, a `file://` reference or the empty string is
      kept as given. */
  function ImageRef(image: string): (r: string)
    ensures r == "file://" + image <==> |image| > 0 && !HasUrlScheme(image)
    ensures r == image <==> |image| == 0 || HasUrlScheme(image)
    ensures |r| == 0 || HasUrlScheme(r)
    ensures |image| <= |r| && r[|r| - |image|..] == image
  {
    if |image| > 0 && !HasUrlScheme(image) then
      var r := "file://" + image;
      assert r[..7] == "file://";
      r
    else image
  }

  /** A reference that went through `ImageRef` is left alone by it. */
  lemma ImageRefIdempotent(image: string)
    ensures ImageRef(ImageRef(image)) == ImageRef(image)
  {
  }

  /** The three fixed fields, in the order the dict literal lists them. */
  function BaseContext(title: string, text: string, image: string): Dict
  {
    [("title", Text(title)), ("text", Text(text)), ("image", Text(ImageRef(image)))]
  }

  /** The context `generate_frame` substitutes: the fixed fields, then
      `context.update(ext)` when `ext` is a non-empty dict. */
  function BuildContext(title: string, text: string, image: string, ext: Option<Dict>): (r: Dict)
    ensures 3 <= |r| <= 3 + |ExtEntries(ext)|
  {
    var base := BaseContext(title, text, image);
    if ext.Some? && |ext.value| > 0 then UpdateAll(base, ext.value)
    else base
  }

  /** The extension entries `BuildContext` merges: none for `None`. */
  function ExtEntries(ext: Option<Dict>): Dict
  {
    if ext.Some? then ext.value else []
  }

  /** The fixed fields are three distinct keys. */
  lemma BaseKeys(title: string, text: string, image: string)
    ensures KeysOf(BaseContext(title, text, image)) == ["title", "text", "image"]
    ensures UniqueKeys(BaseContext(title, text, image))
  {
    var base := BaseContext(title, text, image);
    assert KeysOf(base) == [base[0].0, base[1].0, base[2].0];
  }

  /** The context lists `title`, `text`, `image` first, then the
      extension's other keys in their order; an extension key equal to a
      fixed field overrides that field in place. */
  lemma BuildContextKeys(title: string, text: string, image: string, ext: Option<Dict>)
    requires ext.Some? ==> UniqueKeys(ext.value)
    ensures var ctx := BuildContext(title, text, image, ext);
            && UniqueKeys(ctx)
            && KeysOf(ctx) == ["title", "text", "image"] + Fresh(["title", "text", "image"], KeysOf(ExtEntries(ext)))
  {
    var base := BaseContext(title, text, image);
    var fixed := ["title", "text", "image"];
    BaseKeys(title, text, image);
    if ext.Some? && |ext.value| > 0 {
      UpdateAllKeys(base, ext.value);
      UpdateAllUnique(base, ext.value);
    } else {
      assert KeysOf(ExtEntries(ext)) == [];
      assert fixed + Fresh(fixed, []) == fixed;
    }
  }

  /** The fixed fields' values, and nothing else. */
  lemma BaseLookup(title: string, text: string, image: string, k: string)
    ensures Lookup(BaseContext(title, text, image), k) ==
              if k == "title" then Some(Text(title))
              else if k == "text" then Some(Text(text))
              else if k == "image" then Some(Text(ImageRef(image)))
              else None
  {
    var base := BaseContext(title, text, image);
    var b1 := base[1..];
    var b2 := b1[1..];
    assert b2[1..] == [];
    assert Lookup(b2, k) == if k == "image" then Some(Text(ImageRef(image))) else Lookup(b2[1..], k);
    assert Lookup(b1, k) == if k == "text" then Some(Text(text)) else Lookup(b2, k);
    assert Lookup(base, k) == if k == "title" then Some(Text(title)) else Lookup(b1, k);
  }

  /** Every key's value in the context: the extension's when it has the
      key, otherwise the fixed field's (absent for keys that are neither). */
  lemma BuildContextLookup(title: string, text: string, image: string, ext: Option<Dict>, k: string)
    requires ext.Some? ==> UniqueKeys(ext.value)
    ensures var e := ExtEntries(ext);
            Lookup(BuildContext(title, text, image, ext), k) ==
              if k in KeysOf(e) then Lookup(e, k)
              else if k == "title" then Some(Text(title))
              else if k == "text" then Some(Text(text))
              else if k == "image" then Some(Text(ImageRef(image)))
              else None
  {
    var base := BaseContext(title, text, image);
    BaseLookup(title, text, image, k);
    if ext.Some? && |ext.value| > 0 {
      UpdateAllLookup(base, ext.value, k);
    }
  }

  /** Unless the extension sets `title`, the context's first entry is the
      node's title. */
  lemma BuildContextHead(title: string, text: string, image: string, ext: Option<Dict>)
    requires ext.Some? ==> UniqueKeys(ext.value)
    requires "title" !in KeysOf(ExtEntries(ext))
    ensures var ctx := BuildContext(title, text, image, ext);
            |ctx| > 0 && ctx[0] == ("title", Text(title))
  {
    var ctx := BuildContext(title, text, image, ext);
    BuildContextKeys(title, text, image, ext);
    BuildContextLookup(title, text, image, ext, "title");
    assert ctx[0].0 == KeysOf(ctx)[0] == "title";
    LookupAt(ctx, 0);
  }

  /** A parsed JSON document: an object becomes a dict, every other top
      level (array, string, number, `true`, `false`, `null`) is opaque. */
  datatype JsonDoc = Object(fields: Dict) | NonObject

  predicate WellFormedDoc(doc: Option<JsonDoc>)
  {
    doc.Some? && doc.value.Object? ==> UniqueKeys(doc.value.fields)
  }

  /** `ext_params` in `render_frame`. `parsed` is what `json.loads(extJson)`
      gives, `None` for a decode error; it is consulted only when `extJson`
      is not blank. A blank or malformed text yields the empty dict. Then
      `width` and `height` are stored from the output geometry. A document
      that is not an object cannot take those item assignments: that raises
      and is `None` here. */
  function ExtParams(extJson: string, parsed: Option<JsonDoc>, width: int, height: int): (r: Option<Dict>)
    requires WellFormedDoc(parsed)
    ensures r.None? <==> !IsBlank(extJson) && parsed.Some? && parsed.value.NonObject?
    ensures r.Some? ==> UniqueKeys(r.value)
    ensures r.Some? ==>
              && Lookup(r.value, "width") == Some(Int(width))
              && Lookup(r.value, "height") == Some(Int(height))
    ensures IsBlank(extJson) || parsed.None? ==> r == Some([("width", Int(width)), ("height", Int(height))])
  {
    var loaded: Option<Dict> :=
      if IsBlank(extJson) then Some([])
      else match parsed
        case None => Some([])
        case Some(Object(fields)) => Some(fields)
        case Some(NonObject) => None;
    match loaded
    case None => None
    case Some(fields) =>
      var withWidth := Update(fields, "width", Int(width));
      UpdateUnique(fields, "width", Int(width));
      UpdateUnique(withWidth, "height", Int(height));
      UpdateOthers(withWidth, "height", Int(height), "width");
      assert |fields| == 0 ==> withWidth == [("width", Int(width))];
      assert |fields| == 0 ==> Update(withWidth, "height", Int(height)) == [("width", Int(width)), ("height", Int(height))];
      Some(Update(withWidth, "height", Int(height)))
  }

  /** Every other key of a parsed JSON object keeps its value. */
  lemma ExtParamsKeepsOtherKeys(extJson: string, fields: Dict, width: int, height: int, k: string)
    requires UniqueKeys(fields)
    requires !IsBlank(extJson)
    requires k != "width" && k != "height"
    ensures ExtParams(extJson, Some(Object(fields)), width, height) == Some(Update(Update(fields, "width", Int(width)), "height", Int(height)))
    ensures Lookup(ExtParams(extJson, Some(Object(fields)), width, height).value, k) == Lookup(fields, k)
  {
    UpdateOthers(fields, "width", Int(width), k);
    UpdateOthers(Update(fields, "width", Int(width)), "height", Int(height), k);
  }

  /** Storing the geometry into an empty dict. */
  lemma EmptyExtParams(width: int, height: int)
    ensures Update(Update([], "width", Int(width)), "height", Int(height))
         == [("width", Int(width)), ("height", Int(height))]
  {
    var w := Update([], "width", Int(width));
    assert w == [("width", Int(width))];
    assert w[1..] == [];
  }

  /** Blank text, or text the parser rejects, gives the same parameters
      as the text `{}`. */
  lemma EmptyTextFallback(extJson: string, width: int, height: int)
    ensures ExtParams(extJson, None, width, height) == ExtParams("{}", Some(Object([])), width, height)
  {
    assert !IsBlank("{}") by {
      assert !IsSpace("{}"[0]);
    }
    EmptyExtParams(width, height);
  }
}

=== FILE: normalize.dfy ===
/** Input normalisation in `render_frame`: keep the first image of a batch
    and bring its pixels to three channels (grey broadcast, alpha dropped).
    Channel values are abstract. */
module Normalize {
  import opened Wrappers

  /** One image as an H x W x C tensor: `rows[r][c]` is the pixel at row
      `r`, column `c`, and `channels` is the tensor's last dimension. */
  datatype Picture<C> = Picture(channels: nat, rows: seq<seq<seq<C>>>)

  /** Every pixel has `channels` values, as in any tensor. */
  predicate WellShaped<C>(p: Picture<C>)
  {
    forall r, c :: 0 <= r < |p.rows| && 0 <= c < |p.rows[r]| ==> |p.rows[r][c]| == p.channels
  }

  /** `q` has the same rows and row lengths as `p`. */
  predicate SameGeometry<C>(p: Picture<C>, q: Picture<C>)
  {
    |q.rows| == |p.rows| && forall r :: 0 <= r < |p.rows| ==> |q.rows[r]| == |p.rows[r]|
  }

  /** The node's `image` input: a 4-D batch or a 3-D single image. */
  datatype Tensor<C> = Batch(items: seq<Picture<C>>) | Single(pic: Picture<C>)

  predicate TensorWellShaped<C>(t: Tensor<C>)
  {
    match t
    case Batch(items) => forall i :: 0 <= i < |items| ==> WellShaped(items[i])
    case Single(p) => WellShaped(p)
  }

  /** `image = image[0]` for a 4-D input; an empty batch makes the index
      raise (`None`). Batch elements after the first are never looked at. */
  function SelectImage<C>(t: Tensor<C>): (r: Option<Picture<C>>)
    ensures t.Batch? ==> (r.Some? <==> |t.items| > 0)
    ensures t.Batch? && r.Some? ==> r.value == t.items[0]
    ensures t.Single? ==> r == Some(t.pic)
  {
    match t
    case Batch(items) => if |items| == 0 then None else Some(items[0])
    case Single(p) => Some(p)
  }

  /** Rebuilds every pixel with `f`, keeping the geometry. */
  function MapPixels<C>(rows: seq<seq<seq<C>>>, f: seq<C> -> seq<C>): (out: seq<seq<seq<C>>>)
    ensures |out| == |rows|
    ensures forall r :: 0 <= r < |rows| ==> |out[r]| == |rows[r]|
    ensures forall r, c :: 0 <= r < |rows| && 0 <= c < |rows[r]| ==> out[r][c] == f(rows[r][c])
  {
    seq(|rows|, r requires 0 <= r < |rows| =>
      seq(|rows[r]|, c requires 0 <= c < |rows[r]| => f(rows[r][c])))
  }

  /** The degraded output re-batches the selected picture; selecting from
      it again gives the same picture, and it is a batch whatever the
      input was. */
  lemma SelectRebatched<C>(t: Tensor<C>)
    requires SelectImage(t).Some?
    ensures SelectImage(Batch([SelectImage(t).value])) == SelectImage(t)
    ensures TensorWellShaped(t) ==> TensorWellShaped(Batch([SelectImage(t).value]))
  {
  }

  /** `np.repeat(px, 3, axis=-1)`: every value of the pixel three times
      in a row, so a one-value pixel becomes its value in each of three
      channels. */
  function Broadcast<C>(px: seq<C>): (r: seq<C>)
    ensures |r| == 3 * |px|
    ensures forall i :: 0 <= i < |r| ==> r[i] == px[i / 3]
    ensures |px| == 1 ==> r == [px[0], px[0], px[0]]
  {
    seq(3 * |px|, i requires 0 <= i < 3 * |px| => px[i / 3])
  }

  /** `px[..., :3]`: the first three channels; putting the dropped
      channels back gives the pixel again. */
  function DropAlpha<C>(px: seq<C>): (r: seq<C>)
    ensures |px| >= 3 ==> |r| == 3 && r + px[3..] == px
    ensures |px| < 3 ==> r == px
  {
    if |px| < 3 then px else px[..3]
  }

  /** The grey-to-RGB and RGBA-to-RGB conversion, decided by the tensor's
      channel count; any other count is left alone. */
  function NormalizeChannels<C>(p: Picture<C>): (q: Picture<C>)
    requires WellShaped(p)
    ensures WellShaped(q)
    ensures SameGeometry(p, q)
    ensures p.channels == 1 || p.channels == 3 || p.channels == 4 ==> q.channels == 3
    ensures p.channels != 1 && p.channels != 4 ==> q == p
    ensures p.channels == 1 ==>
              forall r, c :: 0 <= r < |p.rows| && 0 <= c < |p.rows[r]| ==>
                var v := p.rows[r][c][0]; q.rows[r][c] == [v, v, v]
    ensures p.channels == 4 ==>
              forall r, c :: 0 <= r < |p.rows| && 0 <= c < |p.rows[r]| ==>
                q.rows[r][c] + [p.rows[r][c][3]] == p.rows[r][c]
  {
    if p.channels == 1 then Picture(3, MapPixels(p.rows, Broadcast))
    else if p.channels == 4 then
      var q := Picture(3, MapPixels(p.rows, DropAlpha));
      assert forall r, c :: 0 <= r < |p.rows| && 0 <= c < |p.rows[r]| ==>
               q.rows[r][c] + [p.rows[r][c][3]] == p.rows[r][c];
      q
    else p
  }

  /** The first channel of every pixel, as a one-channel picture. */
  function FirstChannel<C>(p: Picture<C>): Picture<C>
  {
    Picture(1, MapPixels(p.rows, (px: seq<C>) => if |px| == 0 then px else [px[0]]))
  }

  /** Broadcasting loses nothing: the first channel of the broadcast picture
      is the grey picture it came from. */
  lemma GrayRoundTrip<C>(p: Picture<C>)
    requires WellShaped(p) && p.channels == 1
    ensures FirstChannel(NormalizeChannels(p)) == p
  {
    var q := NormalizeChannels(p);
    var back := FirstChannel(q);
    forall r | 0 <= r < |p.rows|
      ensures back.rows[r] == p.rows[r]
    {
      forall c | 0 <= c < |p.rows[r]|
        ensures back.rows[r][c] == p.rows[r][c]
      {
        assert |p.rows[r][c]| == 1;
      }
    }
  }

  /** Normalising any picture twice is the same as once. */
  lemma NormalizeIdempotent<C>(p: Picture<C>)
    requires WellShaped(p)
    ensures NormalizeChannels(NormalizeChannels(p)) == NormalizeChannels(p)
  {
  }
}

=== FILE: renderer.dfy ===
/** `render_frame` end to end: select and normalise the input image, build
    the extension parameters, run a fresh frame generator, and fall back to
    the degraded output when any stage raises. File and tensor conversions
    around these steps are not modelled; the browser is the `shoot`
    parameter. */
module Renderer {
  import opened Wrappers
  import opened Strings
  import opened Context
  import opened Template
  import opened Capture
  import opened Normalize

  /** The exceptions the top-level handler catches, by origin. */
  datatype Failure =
    | EmptyBatch      // `image[0]` on an empty batch
    | ExtNotObject    // `ext_params["width"] = ...` on a JSON value that is not an object
    | CaptureMissing  // the screenshot file was not produced

  /** `render_frame`'s return value. On success: the cropped frame, the
      normalised picture written as the template's input image, and the
      request handed to the browser. On failure: the image the handler
      passes through, and why. */
  datatype RenderResult<C, P> =
    | Rendered(frame: Grid<P>, inputFile: Picture<C>, request: Request)
    | Degraded(passthrough: Tensor<C>, cause: Failure)

  /** `render_frame(image, title, text, template_html, ext_json,
      output_width, output_height)`. `parsed` is the JSON parser's answer
      for `extJson`, `inputPath` the temporary file the input image is
      saved to, `shoot` the browser and `blank` the pixel PIL fills with. */
  function RenderFrame<C, P>(image: Tensor<C>, title: string, text: string, templateHtml: string,
                             extJson: string, parsed: Option<JsonDoc>, width: nat, height: nat,
                             inputPath: string, shoot: Request -> Option<Grid<P>>, blank: P): (res: RenderResult<C, P>)
    requires TensorWellShaped(image)
    requires WellFormedDoc(parsed)
    ensures res.Rendered? ==> IsGrid(res.frame, width, height)
    ensures res.Rendered? ==> res.request.size == CaptureSize(width, height)
    ensures res.Rendered? ==>
              && shoot(res.request).Some?
              && res.frame == Crop(shoot(res.request).value, width, height, blank)
    ensures res.Rendered? ==>
              && SelectImage(image).Some?
              && res.inputFile == NormalizeChannels(SelectImage(image).value)
    ensures res.Rendered? ==>
              && ExtParams(extJson, parsed, width, height).Some?
              && res.request.markup == Substitute(UniversalNewlines(templateHtml),
                   BuildContext(title, text, inputPath, ExtParams(extJson, parsed, width, height)))
    ensures res.Degraded? ==> res.passthrough.Batch?
    ensures SelectImage(image).None? ==> res == Degraded(image, EmptyBatch)
    ensures res.Degraded? && SelectImage(image).Some? ==>
              res.passthrough == Batch([SelectImage(image).value])
    ensures res.Degraded? && res.cause == ExtNotObject <==>
              SelectImage(image).Some? && ExtParams(extJson, parsed, width, height).None?
  {
    match SelectImage(image)
    case None => Degraded(image, EmptyBatch)
    case Some(pic) =>
      var saved := NormalizeChannels(pic);
      match ExtParams(extJson, parsed, width, height)
      case None => Degraded(Batch([pic]), ExtNotObject)
      case Some(ext) =>
        var out := GenerateFrame(NewGenerator(templateHtml, width, height), title, text, inputPath,
                                 Some(ext), shoot, blank);
        match out.frame
        case None => Degraded(Batch([pic]), CaptureMissing)
        case Some(frame) => Rendered(frame, saved, out.request)
  }

  /** The context a successful render substitutes always has `width` and
      `height` equal to the output geometry, whatever the JSON said, and
      its `image` is the `file://` reference of the saved input unless the
      JSON overrides it. The extension text is usable when it is blank,
      malformed or a JSON object, exactly when `ExtParams` succeeds. */
  lemma RenderContextFields(title: string, text: string, inputPath: string, extJson: string,
                            parsed: Option<JsonDoc>, width: nat, height: nat)
    requires WellFormedDoc(parsed)
    requires IsBlank(extJson) || parsed.None? || parsed.value.Object?
    ensures var ext := ExtParams(extJson, parsed, width, height);
            var ctx := BuildContext(title, text, inputPath, ext);
            && Lookup(ctx, "width") == Some(Int(width))
            && Lookup(ctx, "height") == Some(Int(height))
            && ("image" !in KeysOf(ext.value) ==> Lookup(ctx, "image") == Some(Text(ImageRef(inputPath))))
  {
    var ext := ExtParams(extJson, parsed, width, height);
    BuildContextLookup(title, text, inputPath, ext, "width");
    BuildContextLookup(title, text, inputPath, ext, "height");
    BuildContextLookup(title, text, inputPath, ext, "image");
  }

  /** A blank or malformed extension text renders as if it were `{}`. */
  lemma MalformedExtIsEmpty<C, P>(image: Tensor<C>, title: string, text: string, templateHtml: string,
                                  extJson: string, width: nat, height: nat,
                                  inputPath: string, shoot: Request -> Option<Grid<P>>, blank: P)
    requires TensorWellShaped(image)
    ensures RenderFrame(image, title, text, templateHtml, extJson, None, width, height, inputPath, shoot, blank)
         == RenderFrame(image, title, text, templateHtml, "{}", Some(Object([])), width, height, inputPath, shoot, blank)
  {
    EmptyTextFallback(extJson, width, height);
  }

  /** `"<h1>{{title}}</h1>".replace("{{title}}", "Hi")`. */
  lemma TitleReplaced()
    ensures ReplaceAll("<h1>{{title}}</h1>", "{{title}}", "Hi") == "<h1>Hi</h1>"
  {
    assert "<h1>{{title}}</h1>" == "<h1>" + "{{title}}" + "</h1>";
    assert "<h1>Hi</h1>" == "<h1>" + "Hi" + "</h1>";
    ReplaceSingle("<h1>", "{{title}}", "</h1>", "Hi");
  }

  /** `{{title}}` in the scenario's template becomes `Hi`. */
  lemma TitleFirstStep(ctx: Dict)
    requires |ctx| > 0 && ctx[0] == ("title", Text("Hi"))
    ensures ReplaceAll("<h1>{{title}}</h1>", Placeholder(ctx[0].0), Show(ctx[0].1)) == "<h1>Hi</h1>"
  {
    assert Placeholder(ctx[0].0) == "{{title}}";
    assert Show(ctx[0].1) == "Hi";
    TitleReplaced();
  }

  /** No `{{` is left in the scenario's markup. */
  lemma TitleNoBraces()
    ensures !Contains("<h1>Hi</h1>", "{{")
  {
    FirstCharAbsent("<h1>Hi</h1>", "{{", |"<h1>Hi</h1>"|);
  }

  /** The scenario's markup: only `{{title}}` occurs, and after it is
      replaced no `{{` is left for the other keys. */
  lemma TitleMarkup(ctx: Dict)
    requires |ctx| > 0 && ctx[0] == ("title", Text("Hi"))
    ensures Substitute("<h1>{{title}}</h1>", ctx) == "<h1>Hi</h1>"
  {
    TitleFirstStep(ctx);
    TitleNoBraces();
    SubstituteHead("<h1>{{title}}</h1>", ctx);
    var rest := ctx[1..];
    assert Substitute("<h1>Hi</h1>", rest) == "<h1>Hi</h1>";
  }

  /** The request a render hands to the browser: the compensated surface
      of a fresh generator, showing the template as read back from its file
      with the context substituted. */
  function RenderRequest(templateHtml: string, title: string, text: string, inputPath: string,
                         ext: Option<Dict>, width: nat, height: nat): Request
  {
    Request(CaptureSize(width, height), Substitute(UniversalNewlines(templateHtml), BuildContext(title, text, inputPath, ext)))
  }

  /** When the image is selected, the extension text is usable and the
      browser answers the render's request, the render succeeds with that
      request. */
  lemma RenderSucceeds<C, P>(image: Tensor<C>, title: string, text: string, templateHtml: string,
                             extJson: string, parsed: Option<JsonDoc>, width: nat, height: nat,
                             inputPath: string, shoot: Request -> Option<Grid<P>>, blank: P)
    requires TensorWellShaped(image)
    requires WellFormedDoc(parsed)
    requires SelectImage(image).Some?
    requires IsBlank(extJson) || parsed.None? || parsed.value.Object?
    requires forall req :: req == RenderRequest(templateHtml, title, text, inputPath,
                                                ExtParams(extJson, parsed, width, height), width, height)
                           ==> shoot(req).Some?
    ensures var res := RenderFrame(image, title, text, templateHtml, extJson, parsed, width, height, inputPath, shoot, blank);
            && res.Rendered?
            && res.request == RenderRequest(templateHtml, title, text, inputPath,
                                            ExtParams(extJson, parsed, width, height), width, height)
  {
    var ext := ExtParams(extJson, parsed, width, height);
    GenerateFrameFromNew(templateHtml, width, height, title, text, inputPath, ext, shoot, blank);
  }

  /** When the image is selected and the extension text is usable but no
      screenshot appears for the render's request, the render degrades with
      the first batch element, re-batched. With `RenderSucceeds` and the
      degraded cases of `RenderFrame`, a render degrades exactly when one of
      its stages fails. */
  lemma RenderCaptureMissing<C, P>(image: Tensor<C>, title: string, text: string, templateHtml: string,
                                   extJson: string, parsed: Option<JsonDoc>, width: nat, height: nat,
                                   inputPath: string, shoot: Request -> Option<Grid<P>>, blank: P)
    requires TensorWellShaped(image)
    requires WellFormedDoc(parsed)
    requires SelectImage(image).Some?
    requires IsBlank(extJson) || parsed.None? || parsed.value.Object?
    requires forall req :: req == RenderRequest(templateHtml, title, text, inputPath,
                                                ExtParams(extJson, parsed, width, height), width, height)
                           ==> shoot(req).None?
    ensures RenderFrame(image, title, text, templateHtml, extJson, parsed, width, height, inputPath, shoot, blank)
         == Degraded(Batch([SelectImage(image).value]), CaptureMissing)
  {
    var ext := ExtParams(extJson, parsed, width, height);
    GenerateFrameFromNew(templateHtml, width, height, title, text, inputPath, ext, shoot, blank);
  }

  /** Batch elements after the first are never looked at: two batches
      with the same first picture render alike. */
  lemma RenderIgnoresLaterItems<C, P>(p: Picture<C>, xs: seq<Picture<C>>, ys: seq<Picture<C>>,
                                      title: string, text: string, templateHtml: string,
                                      extJson: string, parsed: Option<JsonDoc>, width: nat, height: nat,
                                      inputPath: string, shoot: Request -> Option<Grid<P>>, blank: P)
    requires TensorWellShaped(Batch([p] + xs)) && TensorWellShaped(Batch([p] + ys))
    requires WellFormedDoc(parsed)
    ensures RenderFrame(Batch([p] + xs), title, text, templateHtml, extJson, parsed, width, height, inputPath, shoot, blank)
         == RenderFrame(Batch([p] + ys), title, text, templateHtml, extJson, parsed, width, height, inputPath, shoot, blank)
  {
  }

  /** A browser that always answers with a surface of the requested size
      filled with `0`. */
  function ZeroBrowser(req: Request): Option<Grid<int>>
  {
    Some(seq(req.size.height, _ => seq(req.size.width, _ => 0)))
  }

  /** The scenario's extension text `{}` yields just the geometry. */
  lemma TitleExt()
    ensures ExtParams("{}", Some(Object([])), 200, 100) == Some([("width", Int(200)), ("height", Int(100))])
  {
    assert !IsBlank("{}") by {
      assert !IsSpace("{}"[0]);
    }
    EmptyExtParams(200, 100);
  }

  /** The scenario's template substituted with its context. */
  lemma TitleSubstituted()
    ensures Substitute(UniversalNewlines("<h1>{{title}}</h1>"),
                       BuildContext("Hi", "body", "/tmp/in.png", Some([("width", Int(200)), ("height", Int(100))])))
         == "<h1>Hi</h1>"
  {
    var ext := Some([("width", Int(200)), ("height", Int(100))]);
    assert '\r' !in "<h1>{{title}}</h1>";
    assert KeysOf(ext.value) == ["width", "height"];
    BuildContextHead("Hi", "body", "/tmp/in.png", ext);
    TitleMarkup(BuildContext("Hi", "body", "/tmp/in.png", ext));
  }

  /** The scenario `<h1>{{title}}</h1>` with title `Hi` at 200 x 100 and
      extension text `{}`, for any non-empty input image: the browser is
      asked for a 200 x 187 surface showing `<h1>Hi</h1>`, and the frame
      returned is 100 rows of 200 pixels. */
  lemma TitleScenario<C>(image: Tensor<C>)
    requires TensorWellShaped(image) && SelectImage(image).Some?
    ensures var res := RenderFrame(image, "Hi", "body", "<h1>{{title}}</h1>",
                                   "{}", Some(Object([])), 200, 100, "/tmp/in.png", ZeroBrowser, 0);
            && res.Rendered?
            && res.request == Request(Size(200, 187), "<h1>Hi</h1>")
            && IsGrid(res.frame, 200, 100)
  {
    TitleExt();
    TitleSubstituted();
    RenderSucceeds(image, "Hi", "body", "<h1>{{title}}</h1>",
                   "{}", Some(Object([])), 200, 100, "/tmp/in.png", ZeroBrowser, 0);
  }
}

=== FILE: strings.dfy ===
/** Text primitives with the meaning Python's `str` gives them: literal
    search, non-overlapping left-to-right `replace`, the `split`/`join` pair
    that characterises it, the whitespace test behind `strip`, and the
    decimal text `str` produces for an integer. */
module Strings {

  /** `pat` occurs in `s` starting at index `i`. */
  predicate OccursAt(s: string, pat: string, i: int)
  {
    0 <= i && i + |pat| <= |s| && s[i..i + |pat|] == pat
  }

  /** Python's `pat in s`. */
  predicate Contains(s: string, pat: string)
  {
    exists i | 0 <= i <= |s| :: OccursAt(s, pat, i)
  }

  /** Python's `s.startswith(prefix)`. */
  predicate StartsWith(s: string, prefix: string)
  {
    |prefix| <= |s| && s[..|prefix|] == prefix
  }

  /** An occurrence in `[c] + t` is either at its front or inside `t`. */
  lemma ContainsCons(c: char, t: string, pat: string)
    requires |pat| > 0
    ensures Contains([c] + t, pat) <==> StartsWith([c] + t, pat) || Contains(t, pat)
  {
    var s := [c] + t;
    if Contains(s, pat) {
      var i :| 0 <= i <= |s| && OccursAt(s, pat, i);
      if i > 0 {
        assert t[i - 1..i - 1 + |pat|] == s[i..i + |pat|];
        assert OccursAt(t, pat, i - 1);
      }
    }
    if Contains(t, pat) {
      var i :| 0 <= i <= |t| && OccursAt(t, pat, i);
      assert s[i + 1..i + 1 + |pat|] == t[i..i + |pat|];
      assert OccursAt(s, pat, i + 1);
    }
    if StartsWith(s, pat) {
      assert OccursAt(s, pat, 0);
    }
  }

  /** A text shorter than `pat` cannot contain it. */
  lemma ShortNoOccurrence(s: string, pat: string)
    requires |s| < |pat|
    ensures !Contains(s, pat)
  {
  }

  /** A text in which the first character of `pat` appears only within
      its last `|pat| - 1` positions cannot contain `pat`. */
  lemma FirstCharAbsent(s: string, pat: string, k: nat)
    requires |pat| > 0
    requires k <= |s| < k + |pat|
    requires pat[0] !in s[..k]
    ensures !Contains(s, pat)
  {
  }

  /** Python's `s.replace(pat, rep)`: scan left to right, and at every
      position where `pat` starts, emit `rep` and resume after the match;
      otherwise copy one character. Matches never overlap and text that
      `rep` inserts is never rescanned. */
  function ReplaceAll(s: string, pat: string, rep: string): (r: string)
    requires |pat| > 0
    ensures !Contains(s, pat) ==> r == s
    decreases |s|
  {
    if |s| < |pat| then s
    else if s[..|pat|] == pat then
      assert OccursAt(s, pat, 0);
      rep + ReplaceAll(s[|pat|..], pat, rep)
    else
      assert s == [s[0]] + s[1..];
      ContainsCons(s[0], s[1..], pat);
      [s[0]] + ReplaceAll(s[1..], pat, rep)
  }

  /** Python's `sep.join(parts)`. */
  function Join(parts: seq<string>, sep: string): string
  {
    if |parts| == 0 then []
    else if |parts| == 1 then parts[0]
    else parts[0] + sep + Join(parts[1..], sep)
  }

  /** Prepending a character to the first piece prepends it to the join. */
  lemma JoinExtendFirst(c: char, parts: seq<string>, sep: string)
    requires |parts| >= 1
    ensures Join([[c] + parts[0]] + parts[1..], sep) == [c] + Join(parts, sep)
  {
    var q := [[c] + parts[0]] + parts[1..];
    assert q[1..] == parts[1..];
  }

  /** Python's `s.split(pat)`: the pieces between the occurrences of `pat`
      that the same left-to-right scan as `ReplaceAll` finds. Joining the
      pieces with `pat` gives `s` back. */
  function Split(s: string, pat: string): (parts: seq<string>)
    requires |pat| > 0
    ensures |parts| >= 1
    ensures Join(parts, pat) == s
    decreases |s|
  {
    if |s| < |pat| then [s]
    else if s[..|pat|] == pat then
      var rest := Split(s[|pat|..], pat);
      assert ([[]] + rest)[1..] == rest;
      [[]] + rest
    else
      var rest := Split(s[1..], pat);
      JoinExtendFirst(s[0], rest, pat);
      [[s[0]] + rest[0]] + rest[1..]
  }

  /** `parts` cuts a text at the leftmost non-overlapping occurrences of
      `pat`: no piece before the last contains `pat`, even when followed by
      an incomplete copy of `pat` (so the cut is at the first place an
      occurrence starts), and the last piece contains no `pat` at all. */
  predicate LeftmostCuts(parts: seq<string>, pat: string)
    requires |pat| > 0
  {
    && |parts| >= 1
    && (forall k :: 0 <= k < |parts| - 1 ==> !Contains(parts[k] + pat[..|pat| - 1], pat))
    && !Contains(parts[|parts| - 1], pat)
  }

  /** Leftmost cuts decompose piece by piece. */
  lemma LeftmostCons(p: string, rest: seq<string>, pat: string)
    requires |pat| > 0
    requires |rest| >= 1
    ensures LeftmostCuts([p] + rest, pat)
        <==> !Contains(p + pat[..|pat| - 1], pat) && LeftmostCuts(rest, pat)
  {
    var parts := [p] + rest;
    assert parts[1..] == rest;
    if !Contains(p + pat[..|pat| - 1], pat) && LeftmostCuts(rest, pat) {
      forall k | 0 <= k < |parts| - 1
        ensures !Contains(parts[k] + pat[..|pat| - 1], pat)
      {
        if k > 0 {
          assert parts[k] == rest[k - 1];
        }
      }
    }
    if LeftmostCuts(parts, pat) {
      assert parts[0] == p;
      assert parts[|parts| - 1] == rest[|rest| - 1];
      forall k | 0 <= k < |rest| - 1
        ensures !Contains(rest[k] + pat[..|pat| - 1], pat)
      {
        assert rest[k] == parts[k + 1];
      }
    }
  }

  /** A piece that neither starts a match nor hides one in its remainder
      stays free of `pat` when a character is put in front of it. */
  lemma FirstPieceStaysLeftmost(c: char, r0: string, tail: string, pat: string)
    requires |pat| > 0
    requires !Contains(r0 + pat[..|pat| - 1], pat)
    requires !StartsWith([c] + r0 + pat + tail, pat)
    ensures !Contains([c] + r0 + pat[..|pat| - 1], pat)
  {
    var n := |pat|;
    var u := [c] + r0 + pat[..n - 1];
    var w := [c] + r0 + pat + tail;
    assert u[..n] == w[..n];
    assert u == [c] + (r0 + pat[..n - 1]);
    ContainsCons(c, r0 + pat[..n - 1], pat);
  }

  /** Putting a character that starts no match in front of leftmost cuts
      keeps them leftmost. */
  lemma ExtendFirstLeftmost(c: char, rest: seq<string>, pat: string)
    requires |pat| > 0
    requires LeftmostCuts(rest, pat)
    requires !StartsWith([c] + Join(rest, pat), pat)
    ensures LeftmostCuts([[c] + rest[0]] + rest[1..], pat)
  {
    if |rest| == 1 {
      ContainsCons(c, rest[0], pat);
    } else {
      var tail := Join(rest[1..], pat);
      assert Join(rest, pat) == rest[0] + pat + tail;
      assert [c] + Join(rest, pat) == [c] + rest[0] + pat + tail;
      assert rest == [rest[0]] + rest[1..];
      LeftmostCons(rest[0], rest[1..], pat);
      FirstPieceStaysLeftmost(c, rest[0], tail, pat);
      LeftmostCons([c] + rest[0], rest[1..], pat);
    }
  }

  /** `Split` cuts at the leftmost occurrences. */
  lemma {:induction false} SplitIsLeftmost(s: string, pat: string)
    requires |pat| > 0
    ensures LeftmostCuts(Split(s, pat), pat)
    decreases |s|
  {
    var n := |pat|;
    if |s| < n {
      ShortNoOccurrence(s, pat);
    } else if s[..n] == pat {
      var rest := Split(s[n..], pat);
      SplitIsLeftmost(s[n..], pat);
      ShortNoOccurrence([] + pat[..n - 1], pat);
      LeftmostCons([], rest, pat);
    } else {
      var rest := Split(s[1..], pat);
      SplitIsLeftmost(s[1..], pat);
      assert s == [s[0]] + Join(rest, pat);
      ExtendFirstLeftmost(s[0], rest, pat);
    }
  }

  /** A text without `pat` splits into itself alone. */
  lemma {:induction false} SplitNoOccurrence(s: string, pat: string)
    requires |pat| > 0
    requires !Contains(s, pat)
    ensures Split(s, pat) == [s]
    decreases |s|
  {
    if |s| >= |pat| {
      assert !OccursAt(s, pat, 0);
      assert s == [s[0]] + s[1..];
      ContainsCons(s[0], s[1..], pat);
      SplitNoOccurrence(s[1..], pat);
    }
  }

  /** A non-empty piece free of `pat`, even when followed by an incomplete
      copy of it, starts no match and leaves its remainder free too. */
  lemma LeftmostPieceFront(p0: string, t: string, pat: string)
    requires |pat| > 0 && |p0| > 0
    requires !Contains(p0 + pat[..|pat| - 1], pat)
    ensures !StartsWith(p0 + pat + t, pat)
    ensures !Contains(p0[1..] + pat[..|pat| - 1], pat)
  {
    var n := |pat|;
    var s := p0 + pat + t;
    var u := p0 + pat[..n - 1];
    assert u[..n] == s[..n];
    if s[..n] == pat {
      assert OccursAt(u, pat, 0);
    }
    assert u == [p0[0]] + (p0[1..] + pat[..n - 1]);
    ContainsCons(p0[0], p0[1..] + pat[..n - 1], pat);
  }

  /** A text that starts with `pat` splits into an empty piece first. */
  lemma SplitAtFront(t: string, pat: string)
    requires |pat| > 0
    ensures Split(pat + t, pat) == [[]] + Split(t, pat)
  {
    var s := pat + t;
    assert s[..|pat|] == pat;
    assert s[|pat|..] == t;
  }

  /** A text that does not start with `pat` keeps its first character in
      its first piece. */
  lemma SplitPastFront(s: string, pat: string)
    requires |pat| > 0
    requires |s| > 0 && !StartsWith(s, pat)
    ensures var rest := Split(s[1..], pat);
            Split(s, pat) == [[s[0]] + rest[0]] + rest[1..]
  {
    if |s| < |pat| {
      ShortNoOccurrence(s[1..], pat);
      SplitNoOccurrence(s[1..], pat);
      ShortNoOccurrence(s, pat);
      SplitNoOccurrence(s, pat);
      assert [s[0]] + s[1..] == s;
    }
  }

  /** When `p0` holds no occurrence of `pat`, not even one completed by the
      start of `pat`, splitting `p0 + pat + t` cuts off `p0` first. */
  lemma {:induction false} SplitAfterLeftmost(p0: string, t: string, pat: string)
    requires |pat| > 0
    requires !Contains(p0 + pat[..|pat| - 1], pat)
    ensures Split(p0 + pat + t, pat) == [p0] + Split(t, pat)
    decreases |p0|
  {
    var s := p0 + pat + t;
    if |p0| == 0 {
      assert s == pat + t;
      SplitAtFront(t, pat);
    } else {
      var p1 := p0[1..];
      LeftmostPieceFront(p0, t, pat);
      SplitAfterLeftmost(p1, t, pat);
      assert s[1..] == p1 + pat + t;
      SplitPastFront(s, pat);
      assert [s[0]] + p1 == p0;
    }
  }

  /** Leftmost cuts are unique: any decomposition of `s` at leftmost
      occurrences of `pat` is the one `Split` computes. */
  lemma {:induction false} SplitUnique(s: string, pat: string, parts: seq<string>)
    requires |pat| > 0
    requires LeftmostCuts(parts, pat)
    requires Join(parts, pat) == s
    ensures Split(s, pat) == parts
    decreases |s|
  {
    if |parts| == 1 {
      SplitNoOccurrence(s, pat);
    } else {
      var t := Join(parts[1..], pat);
      assert s == parts[0] + pat + t;
      assert parts == [parts[0]] + parts[1..];
      LeftmostCons(parts[0], parts[1..], pat);
      SplitUnique(t, pat, parts[1..]);
      SplitAfterLeftmost(parts[0], t, pat);
    }
  }

  /** `ReplaceAll` is `split` followed by `join` with the replacement. */
  lemma {:induction false} ReplaceAllIsJoinOfSplit(s: string, pat: string, rep: string)
    requires |pat| > 0
    ensures ReplaceAll(s, pat, rep) == Join(Split(s, pat), rep)
    decreases |s|
  {
    var n := |pat|;
    if |s| < n {
    } else if s[..n] == pat {
      var rest := Split(s[n..], pat);
      ReplaceAllIsJoinOfSplit(s[n..], pat, rep);
      assert ReplaceAll(s, pat, rep) == rep + ReplaceAll(s[n..], pat, rep);
      var q := [[]] + rest;
      assert Split(s, pat) == q;
      assert q[0] == [] && q[1..] == rest;
      assert Join(q, rep) == [] + rep + Join(rest, rep);
    } else {
      var rest := Split(s[1..], pat);
      ReplaceAllIsJoinOfSplit(s[1..], pat, rep);
      assert ReplaceAll(s, pat, rep) == [s[0]] + ReplaceAll(s[1..], pat, rep);
      SplitPastFront(s, pat);
      JoinExtendFirst(s[0], rest, rep);
    }
  }

  /** Reference definition of `str.replace`: cut `s` at the leftmost
      non-overlapping occurrences of `pat` and glue the pieces back with
      `rep`. Whatever decomposition meets that description, `ReplaceAll`
      agrees with it. */
  lemma ReplaceAllCharacterised(s: string, pat: string, rep: string, parts: seq<string>)
    requires |pat| > 0
    requires LeftmostCuts(parts, pat)
    requires Join(parts, pat) == s
    ensures ReplaceAll(s, pat, rep) == Join(parts, rep)
  {
    SplitUnique(s, pat, parts);
    ReplaceAllIsJoinOfSplit(s, pat, rep);
  }

  /** A single occurrence of `pat`, with the first character of `pat`
      appearing in neither side, is replaced exactly once. */
  lemma ReplaceSingle(a: string, pat: string, b: string, rep: string)
    requires |pat| > 0
    requires pat[0] !in a && pat[0] !in b
    ensures ReplaceAll(a + pat + b, pat, rep) == a + rep + b
  {
    var parts := [a, b];
    assert Join(parts, pat) == a + pat + b;
    FirstCharAbsent(b, pat, |b|);
    FirstCharAbsent(a + pat[..|pat| - 1], pat, |a|);
    assert (a + pat[..|pat| - 1])[..|a|] == a;
    assert LeftmostCuts(parts, pat);
    ReplaceAllCharacterised(a + pat + b, pat, rep, parts);
    assert Join(parts, rep) == a + rep + b;
  }

  /** Joining the same pieces with two separators changes the length by the
      difference of the separators once per cut. */
  lemma {:induction false} JoinLengthDiff(parts: seq<string>, a: string, b: string)
    requires |parts| >= 1
    ensures |Join(parts, a)| - |Join(parts, b)| == (|parts| - 1) * (|a| - |b|)
    decreases |parts|
  {
    if |parts| > 1 {
      JoinLengthDiff(parts[1..], a, b);
    }
  }

  /** Replacing `pat` by itself changes nothing. */
  lemma ReplaceBySelf(s: string, pat: string)
    requires |pat| > 0
    ensures ReplaceAll(s, pat, pat) == s
  {
    ReplaceAllIsJoinOfSplit(s, pat, pat);
  }

  /** A text that contains `pat` splits into at least two pieces. */
  lemma SplitOfContaining(s: string, pat: string)
    requires |pat| > 0
    requires Contains(s, pat)
    ensures |Split(s, pat)| >= 2
  {
    SplitIsLeftmost(s, pat);
  }

  /** Two texts that agree up to a point and then continue with different
      texts of the same length differ. */
  lemma DifferAfterCommonPrefix(p: string, x: string, y: string, t1: string, t2: string)
    requires |x| == |y| && x != y
    ensures p + x + t1 != p + y + t2
  {
    var i := |p|;
    assert (p + x + t1)[i..i + |x|] == x;
    assert (p + y + t2)[i..i + |y|] == y;
  }

  /** A positive multiple of a non-zero number is non-zero. */
  lemma NonZeroProduct(m: int, d: int)
    requires m > 0 && d != 0
    ensures m * d != 0
  {
  }

  /** Joining two or more pieces with different separators gives
      different texts. */
  lemma JoinDiffers(parts: seq<string>, a: string, b: string)
    requires |parts| >= 2
    requires a != b
    ensures Join(parts, a) != Join(parts, b)
  {
    if |a| != |b| {
      JoinLengthDiff(parts, a, b);
      NonZeroProduct(|parts| - 1, |a| - |b|);
    } else {
      var ta := Join(parts[1..], a);
      var tb := Join(parts[1..], b);
      assert Join(parts, a) == parts[0] + a + ta;
      assert Join(parts, b) == parts[0] + b + tb;
      DifferAfterCommonPrefix(parts[0], a, b, ta, tb);
    }
  }

  /** Replacing a present pattern by a different text changes the text. */
  lemma ReplaceChanges(s: string, pat: string, rep: string)
    requires |pat| > 0
    requires Contains(s, pat)
    requires rep != pat
    ensures ReplaceAll(s, pat, rep) != s
  {
    var parts := Split(s, pat);
    SplitOfContaining(s, pat);
    ReplaceAllIsJoinOfSplit(s, pat, rep);
    JoinDiffers(parts, rep, pat);
  }

  /** Replacing leaves a text unchanged exactly when the pattern is absent
      or is replaced by itself. */
  lemma ReplaceUnchangedIff(s: string, pat: string, rep: string)
    requires |pat| > 0
    ensures ReplaceAll(s, pat, rep) == s <==> !Contains(s, pat) || rep == pat
  {
    if Contains(s, pat) && rep != pat {
      ReplaceChanges(s, pat, rep);
    } else if rep == pat {
      ReplaceBySelf(s, pat);
    }
  }

  /** The text a file written in text mode reads back as on a POSIX
      system: writing keeps the characters, and reading with universal
      newlines turns every `"\r\n"` and every other `'\r'` into `'\n'`. */
  function UniversalNewlines(s: string): (r: string)
    ensures '\r' !in r
    ensures '\r' !in s ==> r == s
    ensures |r| <= |s|
    decreases |s|
  {
    if |s| == 0 then []
    else if s[0] == '\r' then
      "\n" + UniversalNewlines(if |s| > 1 && s[1] == '\n' then s[2..] else s[1..])
    else
      assert s == [s[0]] + s[1..];
      [s[0]] + UniversalNewlines(s[1..])
  }

  /** `ReplaceAll` with a one-character pattern, one character at a time. */
  lemma ReplaceCharCons(c: char, x: string, p: char, rep: string)
    ensures ReplaceAll([c] + x, [p], rep) == (if c == p then rep else [c]) + ReplaceAll(x, [p], rep)
  {
    var s := [c] + x;
    assert s[..1] == [c] && s[1..] == x;
  }

  /** Reference definition of the newline translation, as Python documents
      it: first every `"\r\n"`, then every remaining `'\r'` becomes
      `'\n'`. */
  lemma {:induction false} UniversalNewlinesByReplace(s: string)
    ensures UniversalNewlines(s) == ReplaceAll(ReplaceAll(s, "\r\n", "\n"), "\r", "\n")
    decreases |s|
  {
    var crlf := "\r\n";
    if |s| == 0 {
    } else if s[0] == '\r' && |s| > 1 && s[1] == '\n' {
      assert s[..2] == crlf;
      assert ReplaceAll(s, crlf, "\n") == "\n" + ReplaceAll(s[2..], crlf, "\n");
      ReplaceCharCons('\n', ReplaceAll(s[2..], crlf, "\n"), '\r', "\n");
      UniversalNewlinesByReplace(s[2..]);
    } else {
      assert s == [s[0]] + s[1..];
      if |s| >= 2 {
        assert s[..2] != crlf by {
          if s[0] == '\r' {
            assert s[1] != crlf[1];
          }
        }
        assert ReplaceAll(s, crlf, "\n") == [s[0]] + ReplaceAll(s[1..], crlf, "\n");
      } else {
        assert ReplaceAll(s, crlf, "\n") == s;
        assert ReplaceAll(s[1..], crlf, "\n") == [];
      }
      ReplaceCharCons(s[0], ReplaceAll(s[1..], crlf, "\n"), '\r', "\n");
      UniversalNewlinesByReplace(s[1..]);
    }
  }

  /** Python's `str.isspace` for one character: the characters `strip()`
      removes when called without arguments. */
  predicate IsSpace(c: char)
  {
    || c == ' '
    || ('\t' <= c <= '\r')
    || ('\U{1C}' <= c <= '\U{1F}')
    || c == '\U{85}' || c == '\U{A0}' || c == '\U{1680}'
    || ('\U{2000}' <= c <= '\U{200A}')
    || c == '\U{2028}' || c == '\U{2029}' || c == '\U{202F}'
    || c == '\U{205F}' || c == '\U{3000}'
  }

  /** Every character of `s` is whitespace: exactly the texts whose
      `strip()` is empty (`BlankIffStripEmpty`). */
  predicate IsBlank(s: string)
  {
    forall i :: 0 <= i < |s| ==> IsSpace(s[i])
  }

  /** The first position at or after `i` that does not hold whitespace,
      or `|s|` if there is none. */
  function SkipSpaces(s: string, i: nat): (k: nat)
    requires i <= |s|
    ensures i <= k <= |s|
    ensures forall j :: i <= j < k ==> IsSpace(s[j])
    ensures k < |s| ==> !IsSpace(s[k])
    decreases |s| - i
  {
    if i < |s| && IsSpace(s[i]) then SkipSpaces(s, i + 1) else i
  }

  /** The end of `s[lo..e]` once its trailing whitespace is dropped. */
  function TrimEnd(s: string, lo: nat, e: nat): (m: nat)
    requires lo <= e <= |s|
    ensures lo <= m <= e
    ensures forall j :: m <= j < e ==> IsSpace(s[j])
    ensures m > lo ==> !IsSpace(s[m - 1])
    decreases e
  {
    if e > lo && IsSpace(s[e - 1]) then TrimEnd(s, lo, e - 1) else e
  }

  /** How many whitespace characters `s` starts with. */
  function LeadingSpaces(s: string): nat
    ensures LeadingSpaces(s) <= |s|
  {
    SkipSpaces(s, 0)
  }

  /** Python's `s.strip()`: the slice of `s` between its leading and its
      trailing whitespace; it neither starts nor ends with whitespace. */
  function Strip(s: string): (r: string)
    ensures |r| > 0 ==> !IsSpace(r[0]) && !IsSpace(r[|r| - 1])
    ensures LeadingSpaces(s) + |r| <= |s|
    ensures r == s[LeadingSpaces(s)..LeadingSpaces(s) + |r|]
    ensures forall j :: 0 <= j < LeadingSpaces(s) ==> IsSpace(s[j])
    ensures forall j :: LeadingSpaces(s) + |r| <= j < |s| ==> IsSpace(s[j])
  {
    var k := SkipSpaces(s, 0);
    var m := TrimEnd(s, k, |s|);
    s[k..m]
  }

  /** `if ext_json.strip()` is false exactly when the text is blank. */
  lemma BlankIffStripEmpty(s: string)
    ensures IsBlank(s) <==> Strip(s) == []
  {
  }

  predicate IsDigit(c: char)
  {
    '0' <= c <= '9'
  }

  predicate AllDigits(s: string)
  {
    forall i :: 0 <= i < |s| ==> IsDigit(s[i])
  }

  /** The number a string of decimal digits denotes. */
  function DigitsValue(s: string): nat
    requires AllDigits(s)
  {
    if |s| == 0 then 0
    else DigitsValue(s[..|s| - 1]) * 10 + (s[|s| - 1] as int - '0' as int)
  }

  /** Python's `str(n)` for a natural number: its canonical decimal digits. */
  function NatToDecimal(n: nat): (r: string)
    ensures |r| >= 1 && AllDigits(r)
    ensures DigitsValue(r) == n
    ensures r[0] == '0' ==> r == "0"
    decreases n
  {
    var last := [('0' as int + n % 10) as char];
    if n < 10 then last
    else
      var prefix := NatToDecimal(n / 10);
      assert (prefix + last)[..|prefix|] == prefix;
      prefix + last
  }

  /** Decimal digits without superfluous leading zeros. */
  predicate CanonicalDigits(s: string)
  {
    |s| >= 1 && AllDigits(s) && (s[0] == '0' ==> s == "0")
  }

  /** `r` is how Python writes the integer `n`: a minus sign exactly for a
      negative number, then the canonical digits of its magnitude. */
  predicate IsDecimalOf(r: string, n: int)
  {
    && |r| >= 1
    && (n < 0 <==> r[0] == '-')
    && var digits := if n < 0 then r[1..] else r;
       CanonicalDigits(digits) && DigitsValue(digits) == (if n < 0 then -n else n)
  }

  /** Python's `str(n)` for an integer: a minus sign before the digits of a
      negative number. */
  function IntToDecimal(n: int): (r: string)
    ensures IsDecimalOf(r, n)
  {
    if n < 0 then
      var d := NatToDecimal(-n);
      assert ("-" + d)[1..] == d;
      "-" + d
    else NatToDecimal(n)
  }

  /** Canonical digits that do not stand for zero stand for a positive
      number. */
  lemma {:induction false} LeadingDigitPositive(s: string)
    requires |s| >= 1 && AllDigits(s) && s[0] != '0'
    ensures DigitsValue(s) >= 1
    decreases |s|
  {
    if |s| > 1 {
      var p := s[..|s| - 1];
      assert p[0] == s[0];
      LeadingDigitPositive(p);
    }
  }

  /** Two canonical digit strings with the same value are equal. */
  lemma {:induction false} CanonicalDigitsUnique(a: string, b: string)
    requires CanonicalDigits(a) && CanonicalDigits(b)
    requires DigitsValue(a) == DigitsValue(b)
    ensures a == b
    decreases |a| + |b|
  {
    var a' := a[..|a| - 1];
    var b' := b[..|b| - 1];
    var da := a[|a| - 1] as int - '0' as int;
    var db := b[|b| - 1] as int - '0' as int;
    assert DigitsValue(a) == DigitsValue(a') * 10 + da;
    assert DigitsValue(b) == DigitsValue(b') * 10 + db;
    assert da == db && DigitsValue(a') == DigitsValue(b');
    assert a[|a| - 1] == b[|b| - 1];
    if |a| == 1 && |b| > 1 {
      assert b'[0] == b[0] != '0';
      LeadingDigitPositive(b');
    } else if |b| == 1 && |a| > 1 {
      assert a'[0] == a[0] != '0';
      LeadingDigitPositive(a');
    } else if |a| > 1 && |b| > 1 {
      assert a'[0] == a[0] && b'[0] == b[0];
      CanonicalDigitsUnique(a', b');
      assert a == a' + [a[|a| - 1]] && b == b' + [b[|b| - 1]];
    }
  }

  /** `str(n)` is the only text that writes `n` in decimal. */
  lemma DecimalUnique(r1: string, r2: string, n: int)
    requires IsDecimalOf(r1, n) && IsDecimalOf(r2, n)
    ensures r1 == r2
  {
    var d1 := if n < 0 then r1[1..] else r1;
    var d2 := if n < 0 then r2[1..] else r2;
    CanonicalDigitsUnique(d1, d2);
    if n < 0 {
      assert r1 == [r1[0]] + d1 && r2 == [r2[0]] + d2;
    }
  }
}

=== FILE: template.dfy ===
/** Placeholder substitution (`_replace_parameters`): for every context
    entry in insertion order, every literal `{{key}}` in the current text is
    replaced by `str(value)`. The fold is sequential, so text inserted for
    one key is visible to the keys processed after it. */
module Template {
  import opened Strings
  import opened Context

  /** The literal `{{key}}` that stands for `key` in a template. */
  function Placeholder(key: string): (p: string)
    ensures |p| == |key| + 4
    ensures StartsWith(p, "{{")
    ensures p[2..|p| - 2] == key && p[|p| - 2..] == "}}"
  {
    "{{" + key + "}}"
  }

  /** Different keys have different placeholders, so a key is replaced
      only through its own placeholder text. */
  lemma PlaceholderInjective(k1: string, k2: string)
    ensures Placeholder(k1) == Placeholder(k2) <==> k1 == k2
  {
    var p1 := Placeholder(k1);
    var p2 := Placeholder(k2);
    if p1 == p2 {
      assert k1 == p1[2..|p1| - 2] == p2[2..|p2| - 2] == k2;
    }
  }

  /** Every placeholder begins with `{{`, so a text without `{{` holds no
      placeholder. */
  lemma NoBracesNoPlaceholder(s: string, key: string)
    ensures !Contains(s, "{{") ==> !Contains(s, Placeholder(key))
  {
    var p := Placeholder(key);
    if Contains(s, p) {
      var i :| 0 <= i <= |s| && OccursAt(s, p, i);
      assert s[i..i + 2] == p[..2];
      assert OccursAt(s, "{{", i);
    }
  }

  /** `_replace_parameters(html, values)`: a left fold of `ReplaceAll` over
      the entries in order. */
  function Substitute(html: string, ctx: Dict): (r: string)
    ensures !Contains(html, "{{") ==> r == html
    decreases |ctx|
  {
    if |ctx| == 0 then html
    else
      var step := ReplaceAll(html, Placeholder(ctx[0].0), Show(ctx[0].1));
      NoBracesNoPlaceholder(html, ctx[0].0);
      Substitute(step, ctx[1..])
  }

  /** The first entry is applied first. */
  lemma SubstituteHead(html: string, ctx: Dict)
    requires |ctx| > 0
    ensures Substitute(html, ctx)
         == Substitute(ReplaceAll(html, Placeholder(ctx[0].0), Show(ctx[0].1)), ctx[1..])
  {
  }

  /** Substituting two context fragments one after the other is the same as
      substituting their concatenation: the fold runs strictly left to
      right. */
  lemma {:induction false} SubstituteAppend(html: string, c1: Dict, c2: Dict)
    ensures Substitute(html, c1 + c2) == Substitute(Substitute(html, c1), c2)
    decreases |c1|
  {
    if |c1| > 0 {
      var step := ReplaceAll(html, Placeholder(c1[0].0), Show(c1[0].1));
      assert (c1 + c2)[1..] == c1[1..] + c2;
      SubstituteAppend(step, c1[1..], c2);
    } else {
      assert c1 + c2 == c2;
    }
  }

  /** The last entry is applied last, to the text all earlier entries
      produced. */
  lemma SubstituteLast(html: string, ctx: Dict, key: string, v: Value)
    ensures Substitute(html, ctx + [(key, v)])
         == ReplaceAll(Substitute(html, ctx), Placeholder(key), Show(v))
  {
    SubstituteAppend(html, ctx, [(key, v)]);
  }

  /** An entry whose placeholder is absent from the text when its turn
      comes changes nothing: dropping it gives the same result. */
  lemma SubstituteSkipsAbsentKey(html: string, c1: Dict, key: string, v: Value, c2: Dict)
    requires !Contains(Substitute(html, c1), Placeholder(key))
    ensures Substitute(html, c1 + [(key, v)] + c2) == Substitute(html, c1 + c2)
  {
    SubstituteAppend(html, c1 + [(key, v)], c2);
    SubstituteLast(html, c1, key, v);
    SubstituteAppend(html, c1, c2);
  }

  /** An entry's placeholder is left untouched by the entry itself exactly
      when it is absent or its value's text is the placeholder itself. */
  lemma SubstituteStepUnchangedIff(html: string, key: string, v: Value)
    ensures Substitute(html, [(key, v)]) == html
        <==> !Contains(html, Placeholder(key)) || Show(v) == Placeholder(key)
  {
    ReplaceUnchangedIff(html, Placeholder(key), Show(v));
    assert Substitute(html, [(key, v)]) == ReplaceAll(html, Placeholder(key), Show(v));
  }

  /** A text in which no key of the context has its placeholder is left
      as it is, whatever other `{{...}}` it holds. */
  lemma {:induction false} SubstituteNoPlaceholder(html: string, ctx: Dict)
    requires forall i :: 0 <= i < |ctx| ==> !Contains(html, Placeholder(ctx[i].0))
    ensures Substitute(html, ctx) == html
    decreases |ctx|
  {
    if |ctx| > 0 {
      assert !Contains(html, Placeholder(ctx[0].0));
      assert ReplaceAll(html, Placeholder(ctx[0].0), Show(ctx[0].1)) == html;
      var rest := ctx[1..];
      assert forall i :: 0 <= i < |rest| ==> rest[i] == ctx[i + 1];
      SubstituteNoPlaceholder(html, rest);
    }
  }

  /** Once no placeholder of the context's keys is left, running the
      substitution again is a no-op; placeholders of unknown keys stay in
      the text and do not matter. */
  lemma SubstituteIdempotent(html: string, ctx: Dict)
    requires forall i :: 0 <= i < |ctx| ==> !Contains(Substitute(html, ctx), Placeholder(ctx[i].0))
    ensures Substitute(Substitute(html, ctx), ctx) == Substitute(html, ctx)
  {
    SubstituteNoPlaceholder(Substitute(html, ctx), ctx);
  }

  /** The sequential fold lets a later key rewrite what an earlier key
      inserted: `{{a}}` with `a = "{{b}}"` then `b = "X"` becomes `X`. */
  lemma ChainedSubstitution()
    ensures Substitute("{{a}}", [("a", Text("{{b}}")), ("b", Text("X"))]) == "X"
  {
    var ctx := [("a", Text("{{b}}")), ("b", Text("X"))];
    assert Placeholder("a") == "{{a}}";
    assert Placeholder("b") == "{{b}}";
    assert ReplaceAll("{{a}}", "{{a}}", "{{b}}") == "{{b}}" by {
      assert ReplaceAll("", "{{a}}", "{{b}}") == "";
    }
    assert ReplaceAll("{{b}}", "{{b}}", "X") == "X" by {
      assert ReplaceAll("", "{{b}}", "X") == "";
    }
    assert ctx[1..] == [("b", Text("X"))];
    assert Substitute("{{b}}", ctx[1..]) == "X";
  }

  /** Order matters: with the entries the other way round, `b` is
      processed before `{{b}}` appears and stays in the output. */
  lemma OrderMatters()
    ensures Substitute("{{a}}", [("b", Text("X")), ("a", Text("{{b}}"))]) == "{{b}}"
  {
    var ctx := [("b", Text("X")), ("a", Text("{{b}}"))];
    assert Placeholder("a") == "{{a}}";
    assert Placeholder("b") == "{{b}}";
    assert ReplaceAll("{{a}}", "{{b}}", "X") == "{{a}}" by {
      assert "{{a}}"[0..5][2] != "{{b}}"[2];
      assert !OccursAt("{{a}}", "{{b}}", 0);
    }
    assert ReplaceAll("{{a}}", "{{a}}", "{{b}}") == "{{b}}" by {
      assert ReplaceAll("", "{{a}}", "{{b}}") == "";
    }
    assert ctx[1..] == [("a", Text("{{b}}"))];
  }
}

=== FILE: wrappers.dfy ===
/** The optional-value datatype used wherever the renderer's Python code
    has `None`, a failed lookup or an exception that is caught locally. */
module Wrappers {

  datatype Option<+T> = None | Some(value: T)
}
